=== FILE: README.md ===
# Deezer now-playing overlay: the reconciler core in Dafny

This project models the "now playing" core of a macOS overlay that mirrors
what the Deezer desktop player is playing:

- the title source and parser of the main process (`getDeezerInfo` in
  `main.js`): the player's window title is read through AppleScript and
  turned into a record of title, artist, playing flag, artwork and error;
- the artwork resolver (`getAlbumArt`): a process-lifetime cache keyed by
  `title|artist` in front of one search request per miss;
- the polling tick (`fetchAndSendInfo`): it quits when the player is gone,
  looks artwork up for a track, remembers the last track key and pushes
  the record to the window;
- the transport commands (`mediaControl` and the three IPC handlers): a
  closed table of three media-CLI command lines and the process-wide
  playing flag;
- the standalone Python parser `get-deezer-info.py`: the same decision over
  the list of on-screen windows, with its own parsing rules;
- the renderer's `updateUI` in `renderer/app.js`: which texts, glyph,
  classes and cover the overlay shows for a record.

Everything is pure. The process state (cache, last track key, playing
flag) is an immutable `State`. Each operation returns the new state along
with what it sent. External effects are parameters:

- the AppleScript call is its outcome (`ScriptOutcome`: printed text or the
  message of the thrown error);
- the search service is a function from the query text to an abstract
  response (`SearchResponse`);
- running a media command is a function from the command line to success;
- the Quartz window list is an input sequence;
- the DOM writes of the renderer are a `View` record.

`Artwork.GetAlbumArt` stands for both resolvers: `getAlbumArt`
(`main.js:61-93`) and the Python `get_album_art`
(`get-deezer-info.py:21-46`). Both follow the same rules: the same key,
the same query and the same "truthy cover only" caching.

Modules: `Wrappers` (option type), `Text` (trim, search, split, join,
replace), `Snapshot` (the record), `Artwork`, `TitleParser`, `Reconciler`,
`WindowScan` (the Python parser), `Overlay` (the renderer) and `Scenarios`
(properties that span the main process and the renderer).

Three behaviours of the code shape the model:

- The playing flag flips only after the media command succeeds, and only
  then does the handler re-poll (`main.js:200-209`). A failed command
  leaves the flag alone (`Reconciler.HandleTransport`).
- `getDeezerInfo` always returns `artwork: null` (`main.js:132,134`), so
  the guard at `main.js:156` always passes and the resolver is asked on
  every tick that has a track (`Reconciler.EveryTrackTickAsksResolver`).
  Only the resolver's cache keeps the request count down.
- A running player without a window yields `deezer_found: true`
  (`main.js:121-123`). The renderer never reads that field, so it shows
  "Aucune musique" just as it does before the first record
  (`Scenarios.NoWindowShowsNoMusic`).

## Model

| member | source | states |
|---|---|---|
| Text.Trim | main.js:115 | the result is a slice of the input with only whitespace before and after it, has no whitespace at either end, is empty exactly when the input is all whitespace, and leaves an already trimmed text unchanged |
| Text.IndexOf | main.js:128 | the result is an occurrence of the pattern, and there is no occurrence before it; `None` means there is no occurrence at all |
| Text.LastIndexOf | get-deezer-info.py:60 | the result is an occurrence with no occurrence after it; `None` exactly when the text does not contain the pattern |
| Text.BeforeLast | get-deezer-info.py:60 | `rsplit(pat, 1)[0]` is the prefix that ends where the last occurrence starts, or the whole text when there is none |
| Text.Split | main.js:129-131 | `split(sep)` yields at least one piece, no piece contains the separator, and joining the pieces with the separator gives back the input. The cut is leftmost first: without an occurrence the only piece is the input, otherwise the first piece is the text before the first occurrence |
| Text.JoinBounds | main.js:131 | `join(sep)` starts with the first piece and ends with the last, and its length is the pieces' lengths plus one separator between each two |
| Text.SplitHeadAndRest | main.js:129-131 | the first piece is the text before the first separator, and the other pieces joined back are exactly the text after it, later separators included |
| Text.RemoveAll | get-deezer-info.py:88 | `replace(pat, '')` never lengthens the text and leaves it unchanged exactly when the pattern does not occur |
| Text.RemoveAllIsJoinOfSplit | get-deezer-info.py:88 | removing every occurrence is the same as splitting at them and gluing the pieces back with nothing |
| Snapshot.SignalsNotFound | main.js:148 | the process quits on a record exactly when it carries an error whose text contains "Deezer not found" |
| Artwork.CoverOf | main.js:76-87 | a response yields a cover exactly when it is JSON with a non-empty `data` array whose first hit has an album with a truthy `cover_medium`, and the cover is that `cover_medium` string, never empty |
| Artwork.CacheKeyParts | main.js:62 | the cache key reads back as the title, a bar right after it, and the artist |
| Artwork.SearchQueryParts | main.js:68 | the search text reads back as the title, one space right after it, and the artist |
| Artwork.GetAlbumArt | main.js:61-93 | a cached key answers from the cache with no request; a miss sends exactly the query `title artist` and returns the response's cover; only a found cover is stored, under this key, and existing entries are never removed or rewritten |
| Artwork.LookupKeepsCacheValid | main.js:80-82 | the cache only ever holds non-empty cover URLs |
| Artwork.SecondLookupIsCached | main.js:62-65 | after a successful lookup, asking again for the same pair sends nothing and returns the same cover, whatever the service would answer now |
| Artwork.FailureDoesNotPoison | main.js:86-91 | a failed lookup is not remembered: the next call for the pair sends a fresh request and returns its cover |
| Artwork.CacheKeyCollides | main.js:62 | the key (title, a bar, artist) is not injective: a bar moved between title and artist gives the same key for different pairs |
| Artwork.CollidingTracksShareArtwork | main.js:62-65 | two different pairs with the same key share one cache entry: the second gets the first one's cover with no request |
| Artwork.CacheKeyInjectiveWithoutBar | main.js:62 | when neither title contains a bar, two pairs share a key exactly when they are equal |
| TitleParser.TrackPart | main.js:126 | `replace(/ - Deezer$/, '')` removes the player's name only when it ends the text, and the rest is trimmed |
| TitleParser.GetDeezerInfo | main.js:95-142 | the record has exactly one shape and no artwork. The sentinels give the not-found error and the bare "found" record. A thrown script error is passed through as its message. There is a title exactly when the trimmed output contains `" - Deezer"`, and then title and artist are the non-empty trimmed fields around the first separator ("Unknown" without one) and the playing flag is the process's. Any other output is surfaced as the raw window title |
| TitleParser.SentinelsLackSuffix | main.js:117-125 | neither sentinel contains `" - Deezer"`, so neither can be read as a track |
| TitleParser.TrackPartNotEmpty | main.js:125-126 | a trimmed, non-empty output that names the player leaves a non-empty, trimmed track part |
| TitleParser.SplitFieldsNotEmpty | main.js:128-131 | in a trimmed track part both fields around the first separator keep a non-space character |
| TitleParser.FirstSeparatorAfterSong | main.js:128-130 | for a song without a dash, the first separator in `song - artist` is the one right after the song (the premise of the round trips below) |
| TitleParser.NamedTitleShape | main.js:125-126 | a trimmed track part followed by `" - Deezer"` is trimmed, is neither sentinel, names the player, and strips back to that part |
| TitleParser.ParsedFromShape | main.js:125-135 | the record for a track part followed by the player's name is the track given by the part's split at its first separator |
| TitleParser.ParsesSongAndArtist | main.js:125-132 | `"<song> - <artist> - Deezer"` parses back to exactly that song and artist, with the process's playing flag, whenever both are trimmed and non-empty and the first `" - "` of `song - artist` is the one after the song. Dashes inside the song ("Anti-Hero") are allowed, and separators inside the artist are kept |
| TitleParser.ParsesTitleWithoutArtist | main.js:133-135 | a title without an inner separator parses to that title with the artist "Unknown" |
| Reconciler.Initial | main.js:18-21 | at start-up the cache is empty, no track key has been seen and the process believes the player is playing |
| Reconciler.HasTrack | main.js:154 | a record has a track to look artwork up for exactly when both its title and artist are truthy |
| Reconciler.FetchAndSendInfo | main.js:144-165 | the tick quits exactly on the not-found error and then sends nothing and changes nothing. Otherwise it sends one record while the window is alive. It never touches the playing flag or loses a cached cover, and it issues at most one request. A track always goes through the resolver and its key becomes the last key. Anything else is sent as parsed |
| Reconciler.EveryTrackTickAsksResolver | main.js:153-159 | every parsed record with a title has a truthy title and artist and no artwork, so the artwork guard passes on every track tick |
| Reconciler.TickKeepsCacheValid | main.js:153-159 | a tick keeps the cache holding only non-empty cover URLs |
| Reconciler.RepeatedTrackSendsNoRequest | main.js:154-159 | a second tick on the same title after a successful lookup sends no request, sends the same record and leaves the state as it was |
| Reconciler.MediaCommand | main.js:176-190 | exactly the actions `playpause`, `next` and `previous` have a command line, each the media CLI's path followed by its subcommand |
| Reconciler.MediaCommandInjective | main.js:177-186 | different actions never run the same command line |
| Reconciler.MediaControl | main.js:174-197 | the command run is the table's entry for the action; the call resolves exactly when there is one and it succeeds; an unknown action is rejected with "Unknown action" and runs nothing |
| Reconciler.ActionOf | main.js:200-227 | the three channels pass `playpause`, `next` and `previous`, one each, and every one of them has a command line |
| Reconciler.HandleTransport | main.js:200-227 | each handler returns true exactly when its command ran and succeeded; only a successful play/pause flips the playing flag and polls at once; the cache and last key never change |
| Reconciler.HandlersNeverHitUnknownAction | main.js:200-227 | every IPC channel passes an action that is in the table |
| Reconciler.ToggleFlipsNextSnapshot | main.js:200-205 | after a successful play/pause the immediate re-poll of a track sends the flipped flag, and two successful toggles restore the state |
| WindowScan.FirstDeezerWindow | get-deezer-info.py:51-53 | the result is a window the player owns with no such window before it, or none when the player owns no window |
| WindowScan.InfoFromTitle | get-deezer-info.py:54-125 | the record has exactly one shape and never an error. There is a title exactly when the window name is non-empty and contains `" - Deezer"` or the bar form of the player's name, and a track is always reported as playing. Without a title nothing is looked up and the cache is unchanged. At most one request is sent and the cache only grows. An empty name gives the bare "found" record and any other name the raw window title. A dash-form title is read as the stripped text before its last `" - Deezer"`, split at the first separator with both fields stripped. A bar-form title is read as the stripped text without the bar form of the player's name, split the same way but read in reverse. Both forms look artwork up for the pair they report (see `WindowScan.LooksUpReportedPair`) |
| WindowScan.DashForm | get-deezer-info.py:60-84 | the song is the stripped text before the first separator and the artist the stripped text after it; without a separator the whole part is the song and the artist "Unknown"; a track is always reported playing, with at most one request and a cache that only grows. The artwork, cache and requests are exactly those of looking up the reported pair, or the track part with an empty artist when there is no separator |
| WindowScan.BarForm | get-deezer-info.py:88-106 | the artist is the stripped text before the first separator and the song the stripped text after it; without a separator the whole part is the song with the artist "Unknown", no artwork, no request and the cache unchanged. With a separator the artwork, cache and requests are exactly those of looking up the reported pair |
| WindowScan.ParsersAgree | get-deezer-info.py:58-66 | for a trimmed window title that ends with `" - Deezer"`, the script reports the same title and artist as `getDeezerInfo` in main.js:125-131: the last `" - Deezer"` is the closing one, and both split the stripped rest at its first separator and strip the fields |
| WindowScan.ScriptSplitsTrackPart | main.js:115-131 | a trimmed output that ends with `" - Deezer"` is read as a track whose title and artist are its track part split at the first separator |
| WindowScan.PythonSplitsTrackPart | get-deezer-info.py:58-66 | a window title that ends with `" - Deezer"` is read as a track whose title and artist are the same track part split at the first separator |
| WindowScan.LooksUpReportedPair | get-deezer-info.py:69-93 | whatever whitespace the fields carry, a titled record has the artwork, cache and requests of looking up the pair it reports: the stripped song and artist, or the track part with an empty artist for a dash form without a separator |
| WindowScan.ClosingSuffixIsLast | get-deezer-info.py:60 | in a title that ends with `" - Deezer"`, `rsplit(' - Deezer', 1)[0]` is the title without that closing suffix |
| WindowScan.FindPlayerWindow | get-deezer-info.py:51-53 | the loop stops at a window the player owns with no such window before it, or reports none when the player owns no window; the index is the one `FirstDeezerWindow` names |
| WindowScan.GetDeezerInfo | get-deezer-info.py:48-127 | the first window the player owns decides the record; with none the result is the not-found error with no request and the cache unchanged |
| WindowScan.ParsesDashForm | get-deezer-info.py:58-76 | `"<song> - <artist> - Deezer"` gives that song and artist, and the cover and requests of looking that pair up, whenever both are trimmed and non-empty and the first `" - "` of `song - artist` is the one after the song |
| WindowScan.DashFormStripped | get-deezer-info.py:60 | cutting the dash form at its last `" - Deezer"` leaves exactly `song - artist`, already trimmed |
| WindowScan.NoSeparatorLooksUpEmptyArtist | get-deezer-info.py:77-84 | without an inner separator the artist is reported as "Unknown" while the lookup uses an empty artist, so a miss sends the query for the title and an empty artist |
| WindowScan.ParsesBarFormReversed | get-deezer-info.py:87-99 | the bar form `<artist> - <song>` followed by the player's name is read in reverse: the artist before the first separator, the song after it, and that pair is looked up. It holds whenever both are trimmed and non-empty and bar-free, the first `" - "` is the one after the artist, and the title does not contain `" - Deezer"` (which would take the dash branch first) |
| WindowScan.BarSuffixOnlyAtEnd | get-deezer-info.py:88 | when neither field contains a bar, the first bar form of the player's name in the title is the one that closes it |
| WindowScan.BarFormWithoutSeparatorSkipsLookup | get-deezer-info.py:100-106 | the bar form without an inner separator reports the stripped title without the bar form of the player's name as the song, the artist "Unknown" and no artwork, and sends no request |
| Overlay.HasTitle | renderer/app.js:20 | the overlay shows a track exactly when there is a record and its title is truthy |
| Overlay.Placeholder | renderer/app.js:23-38 | without a title the lines are chosen by priority: the not-found error, then any other truthy error, then a truthy window title, then "Aucune musique" |
| Overlay.UpdateUI | renderer/app.js:19-76 | the no-music class and the placeholder lines appear exactly when there is no title. A title is shown as is and a falsy artist as "Unknown". The playing class and the pause glyph appear exactly for a playing track. The cover is visible and the placeholder hidden exactly for a track with a truthy artwork. Progress is always 0%. Only a record shown as a track becomes `currentInfo`. The cover source is written only for a visible cover |
| Overlay.InitialView | renderer/app.js:109-110 | before the first record the overlay shows "Aucune musique" / "Lancez Deezer" with the play glyph and no cover |
| Overlay.TitleLineNeverEmpty | renderer/app.js:19-58 | the first line of the overlay is never empty |
| Scenarios.TrackTickShowsTrack | renderer/app.js:46-58 | a tick that parses a track is shown as that track: its title and artist, with the pause glyph exactly when the process believes the player is playing |
| Scenarios.NoWindowShowsNoMusic | main.js:121-123 | output that trims to the no-window sentinel is sent as the bare "found" record, which the overlay shows as "Aucune musique" while keeping its previous track |
| Scenarios.ThrownScriptError | main.js:139-141 | a script error naming the missing player quits the process; any other non-empty message is shown as the permission hint, and an empty one as "Aucune musique" |
| Scenarios.NotFoundQuits | main.js:147-151 | output that trims to the not-found sentinel quits the process with nothing sent and no request |
| Scenarios.ToggleFlipsGlyph | main.js:200-205 | after a successful play/pause the immediate re-poll of a track shows the other glyph |
| Scenarios.PlayerTitleParses | main.js:125-132 | the player's title for a trimmed, non-empty song and artist whose first separator is the one after the song parses back to that pair, whatever the playing flag |
| Scenarios.CacheAcrossTicks | main.js:153-159 | from start-up, for any two tracks the parser reads back: the first tick on a track sends its one query and shows the cover found, a second tick on the same title sends none and shows the same record, and a tick on the second track sends its query again unless its key collides with the first one's |
| Scenarios.FirstTrackTick | main.js:153-159 | the first tick on a track after start-up sends that pair's query, shows the cover found, and the cache is exactly that key with that cover |
| Scenarios.SameTrackTwice | main.js:153-159 | the first two ticks on one track after start-up send one query and then none, send the same record, and leave one cache key |
| Scenarios.OtherTrackAfterOne | main.js:153-159 | with one key cached, a tick on another track the parser reads back sends its query exactly when its key differs |
| Scenarios.FirstLookup | main.js:61-93 | on the empty cache a found cover is requested once, returned and becomes the only entry |
| Scenarios.TrackTickRequests | main.js:153-159 | a tick on a track sends that track's query exactly when its key is not cached, and nothing otherwise |

## Left out

- Window management is not modelled: the Electron window, its always-on-top timer, the global shortcuts, the interactive mode, the `set-ignore-mouse` channel and the preload bridge. None of them touches the now-playing state.
- Timing is not modelled: the 1500 ms polling interval, the 500 ms first tick and the concurrency of overlapping asynchronous ticks. A toggle's re-poll is not awaited and may interleave with a timer tick; the model runs ticks one after another.
- The AppleScript text and the `execSync` call, with its 2-second timeout, are replaced by their outcome: the printed text or the thrown message.
- The HTTPS request and its 2-second timeout are replaced by an oracle. So are the URL, with its `limit=1`, and the Python `User-Agent`. Search queries are compared before URL encoding (`encodeURIComponent` / `urllib.parse.quote`).
- JSON parsing is replaced by the abstract `SearchResponse`. Responses whose `data` is not an array, or whose cover is not a string, fall under `Malformed` or are not modelled.
- The Quartz window enumeration is not modelled; the window list is an input. Also out: the import-failure branch (`get-deezer-info.py:12-16`), the `__main__` JSON print, and a window name whose value is `None` (read as the empty string).
- Text.IsSpace: trimming removes only the ASCII whitespace that JavaScript `trim` and Python `strip` have in common (space, tab, line feed, carriage return, vertical tab, form feed). Both also remove other characters, and the two sets differ: Python `strip` removes \x1c to \x1f and U+0085, JavaScript `trim` removes U+FEFF, and both remove the Unicode spaces and line separators.
- Reconciler.MediaControl: a failed command's rejection reason is a fixed text, because the `exec` error object is not modelled; the handlers only observe success.
- Reconciler.FetchAndSendInfo: `app.quit()` is modelled as the `quit` flag; shutdown itself is not modelled.
- The Python artwork cache lives for one process run, and the script runs once per invocation. `WindowScan` takes the cache as a parameter and returns it.
- The stream and uncaught-exception handlers of `main.js` (`main.js:6-12`) are not modelled. The first two swallow write errors on stdout and stderr. The third keeps the process alive after any uncaught exception and logs it unless its code is EPIPE. No modelled operation throws.
- The renderer's button, interactive-mode and update listeners only forward to the IPC channels and to `updateUI`, so they are not modelled separately. DOM mutation and CSS are reduced to the `View` record.

=== FILE: artwork.dfy ===
/**
  The artwork resolver: a process-lifetime cache from `title|artist` to a
  cover URL in front of one search request per miss. The search service is
  an oracle from the query text to an abstract response; both main.js
  `getAlbumArt` and the Python `get_album_art` follow these rules.
*/
module Artwork {
  import opened Wrappers
  import opened Snapshot

  type Cache = map<string, string>

  /** One album inside a search hit; `coverMedium` is `album.cover_medium`. */
  datatype Album = Album(coverMedium: Option<string>)

  /** One element of the response's `data` array; `album` may be missing or null. */
  datatype Hit = Hit(album: Option<Album>)

  /**
    What one search request yields. A transport error, a timeout and an
    unparsable body are all distinct; `Json(None)` is a body without a
    usable `data` array.
  */
  datatype SearchResponse =
    | RequestError
    | TimedOut
    | Malformed
    | Json(data: Option<seq<Hit>>)

  /** The cache key: the two fields joined by a bar. */
  function CacheKey(title: string, artist: string): string {
    title + "|" + artist
  }

  /** The search text, `"<title> <artist>"` before URL encoding. */
  function SearchQuery(title: string, artist: string): string {
    title + " " + artist
  }

  /** A key reads back as the title, a bar at the title's length, and the artist. */
  lemma CacheKeyParts(title: string, artist: string)
    ensures var key := CacheKey(title, artist);
            && |key| == |title| + 1 + |artist|
            && key[..|title|] == title && key[|title|] == '|' && key[|title| + 1..] == artist
  {
  }

  /** A query reads back as the title, one space, and the artist. */
  lemma SearchQueryParts(title: string, artist: string)
    ensures var query := SearchQuery(title, artist);
            && |query| == |title| + 1 + |artist|
            && query[..|title|] == title && query[|title|] == ' ' && query[|title| + 1..] == artist
  {
  }

  /** The cover a response offers: a non-empty `data[0].album.cover_medium`, else nothing. */
  function CoverOf(response: SearchResponse): (r: Option<string>)
    ensures r.Some? ==> r.value != []
    ensures r.Some? <==> response.Json? && response.data.Some? && |response.data.value| > 0
                         && response.data.value[0].album.Some?
                         && Truthy(response.data.value[0].album.value.coverMedium)
    ensures r.Some? ==> r == response.data.value[0].album.value.coverMedium
  {
    match response
    case Json(Some(hits)) =>
      if |hits| > 0 && hits[0].album.Some? && Truthy(hits[0].album.value.coverMedium)
      then hits[0].album.value.coverMedium
      else None
    case _ => None
  }

  /** Every cached URL is a non-empty string: only truthy covers are stored. */
  predicate ValidCache(cache: Cache) {
    forall k :: k in cache ==> cache[k] != []
  }

  /** `small` is contained in `big` with the same value at every key. */
  predicate SubCache(small: Cache, big: Cache) {
    forall k :: k in small ==> k in big && big[k] == small[k]
  }

  /** The cache after a lookup, the value returned and the queries sent. */
  datatype Lookup = Lookup(cache: Cache, result: Option<string>, requests: seq<string>)

  function GetAlbumArt(cache: Cache, title: string, artist: string,
                       search: string -> SearchResponse): (r: Lookup)
    // a hit answers from the cache and sends nothing
    ensures CacheKey(title, artist) in cache <==> r.requests == []
    ensures CacheKey(title, artist) in cache ==>
              r.result == Some(cache[CacheKey(title, artist)]) && r.cache == cache
    // a miss sends exactly one request and returns its cover
    ensures CacheKey(title, artist) !in cache ==>
              r.requests == [SearchQuery(title, artist)]
              && r.result == CoverOf(search(SearchQuery(title, artist)))
    // a failure changes nothing; a success is what is now stored
    ensures r.result.None? ==> r.cache == cache
    ensures r.result.Some? ==> CacheKey(title, artist) in r.cache
                               && r.cache[CacheKey(title, artist)] == r.result.value
    // entries are only ever added, and only under this key
    ensures SubCache(cache, r.cache)
    ensures r.cache.Keys <= cache.Keys + {CacheKey(title, artist)}
  {
    var key := CacheKey(title, artist);
    if key in cache then
      Lookup(cache, Some(cache[key]), [])
    else
      var query := SearchQuery(title, artist);
      var cover := CoverOf(search(query));
      match cover
      case Some(url) => Lookup(cache[key := url], cover, [query])
      case None => Lookup(cache, None, [query])
  }

  /** Only truthy covers reach the cache, so a valid cache stays valid. */
  lemma LookupKeepsCacheValid(cache: Cache, title: string, artist: string,
                              search: string -> SearchResponse)
    requires ValidCache(cache)
    ensures ValidCache(GetAlbumArt(cache, title, artist, search).cache)
    ensures GetAlbumArt(cache, title, artist, search).result.Some? ==>
              GetAlbumArt(cache, title, artist, search).result.value != []
  {
  }

  /**
    Asking again for a pair whose first lookup succeeded sends nothing,
    whatever the service would answer now, and returns the same cover.
  */
  lemma SecondLookupIsCached(cache: Cache, title: string, artist: string,
                             search: string -> SearchResponse, later: string -> SearchResponse)
    requires GetAlbumArt(cache, title, artist, search).result.Some?
    ensures var first := GetAlbumArt(cache, title, artist, search);
            var second := GetAlbumArt(first.cache, title, artist, later);
            second.requests == [] && second.result == first.result && second.cache == first.cache
  {
  }

  /**
    A failed lookup is not remembered: the next call for the same pair
    sends a new request, and caches its cover if that one succeeds.
  */
  lemma FailureDoesNotPoison(cache: Cache, title: string, artist: string,
                             search: string -> SearchResponse, later: string -> SearchResponse)
    requires GetAlbumArt(cache, title, artist, search).result.None?
    ensures var second := GetAlbumArt(GetAlbumArt(cache, title, artist, search).cache, title, artist, later);
            second.requests == [SearchQuery(title, artist)]
            && second.result == CoverOf(later(SearchQuery(title, artist)))
  {
  }

  /**
    The key is plain concatenation, so it is not injective: a bar moved
    from the end of the title to the start of the artist gives the same key.
  */
  lemma CacheKeyCollides(title: string, middle: string, artist: string)
    ensures CacheKey(title + "|" + middle, artist) == CacheKey(title, middle + "|" + artist)
    ensures (title + "|" + middle, artist) != (title, middle + "|" + artist)
  {
    assert |title + "|" + middle| != |title|;
  }

  /** Two tracks with colliding keys share one cache entry: the second never gets its own cover. */
  lemma CollidingTracksShareArtwork(cache: Cache, title: string, middle: string, artist: string,
                                    search: string -> SearchResponse, later: string -> SearchResponse)
    requires GetAlbumArt(cache, title + "|" + middle, artist, search).result.Some?
    ensures var first := GetAlbumArt(cache, title + "|" + middle, artist, search);
            var second := GetAlbumArt(first.cache, title, middle + "|" + artist, later);
            second.requests == [] && second.result == first.result
  {
    CacheKeyCollides(title, middle, artist);
  }

  /** Without a bar in either title, two pairs share a key exactly when they are equal. */
  lemma {:induction false} CacheKeyInjectiveWithoutBar(t1: string, a1: string, t2: string, a2: string)
    requires '|' !in t1 && '|' !in t2
    ensures CacheKey(t1, a1) == CacheKey(t2, a2) <==> t1 == t2 && a1 == a2
  {
    if CacheKey(t1, a1) == CacheKey(t2, a2) {
      var key := CacheKey(t1, a1);
      assert key[|t1|] == '|' && key[|t2|] == '|';
      assert t1 == key[..|t1|] == t2;
      assert a1 == key[|t1| + 1..] == a2;
    }
  }
}

=== FILE: overlay.dfy ===
/**
  renderer/app.js `updateUI`: what the overlay shows for one received
  record (or `null` before the first one). The DOM writes are collected in
  a view record instead of being performed.
*/
module Overlay {
  import opened Wrappers
  import opened Text
  import opened Snapshot

  /** The play glyph, U+25B6. */
  const PlayGlyph: string := "\U{25B6}"
  /** The pause glyph, U+23F8. */
  const PauseGlyph: string := "\U{23F8}"
  /** The only progress the overlay ever shows. */
  const NoProgress: string := "0%"

  /** "Deezer non détecté" / "Lancez Deezer pour commencer" */
  const NotDetectedTitle: string := "Deezer non d\U{E9}tect\U{E9}"
  const NotDetectedHint: string := "Lancez Deezer pour commencer"
  /** "Permission requise" / the screen-recording hint */
  const PermissionTitle: string := "Permission requise"
  const PermissionHint: string := "Activez \"Enregistrement d'\U{E9}cran\" dans Pr\U{E9}f\U{E9}rences Syst\U{E8}me"
  /** "En attente..." / "Jouez une musique sur Deezer" */
  const WaitingTitle: string := "En attente..."
  const WaitingHint: string := "Jouez une musique sur Deezer"
  /** "Aucune musique" / "Lancez Deezer" */
  const NoMusicTitle: string := "Aucune musique"
  const NoMusicHint: string := "Lancez Deezer"

  /**
    The overlay after one update: the `no-music` and `playing` classes, the
    two text lines, the button glyph, the progress width, whether the cover
    is visible and the placeholder hidden, the cover source written (if
    any), and whether the elapsed and duration texts were cleared.
  */
  datatype View = View(
    noMusic: bool,
    playingClass: bool,
    titleText: string,
    artistText: string,
    glyph: string,
    progressWidth: string,
    artworkVisible: bool,
    placeholderHidden: bool,
    artworkSrc: Option<string>,
    timesCleared: bool)

  /** The view and the renderer's `currentInfo` after the update. */
  datatype Update = Update(view: View, currentInfo: Option<DeezerInfo>)

  /** The record carries a title to show. */
  predicate HasTitle(info: Option<DeezerInfo>) {
    info.Some? && Truthy(info.value.title)
  }

  /** The two placeholder lines for a record without a title, errors first. */
  function Placeholder(info: Option<DeezerInfo>): (lines: (string, string))
    ensures info.Some? && Truthy(info.value.error) && Contains(info.value.error.value, NotFoundError)
            ==> lines == (NotDetectedTitle, NotDetectedHint)
    ensures info.Some? && Truthy(info.value.error) && !Contains(info.value.error.value, NotFoundError)
            ==> lines == (PermissionTitle, PermissionHint)
    ensures info.Some? && !Truthy(info.value.error) && Truthy(info.value.windowTitle)
            ==> lines == (WaitingTitle, WaitingHint)
    ensures (info.None? || (!Truthy(info.value.error) && !Truthy(info.value.windowTitle)))
            ==> lines == (NoMusicTitle, NoMusicHint)
  {
    if info.Some? && Truthy(info.value.error) then
      if Contains(info.value.error.value, NotFoundError) then (NotDetectedTitle, NotDetectedHint)
      else (PermissionTitle, PermissionHint)
    else if info.Some? && Truthy(info.value.windowTitle) then (WaitingTitle, WaitingHint)
    else (NoMusicTitle, NoMusicHint)
  }

  function UpdateUI(info: Option<DeezerInfo>, currentInfo: Option<DeezerInfo>): (u: Update)
    // the no-music class and the placeholder lines exactly when there is no title
    ensures u.view.noMusic <==> !HasTitle(info)
    ensures !HasTitle(info) ==> (u.view.titleText, u.view.artistText) == Placeholder(info)
    // a title is shown as is, a falsy artist as "Unknown"
    ensures HasTitle(info) ==>
              && u.view.titleText == info.value.title.value
              && u.view.artistText == (if Truthy(info.value.artist) then info.value.artist.value else UnknownArtist)
    // the pause glyph and the playing class only for a playing track
    ensures u.view.playingClass <==> HasTitle(info) && info.value.playing
    ensures u.view.glyph == (if u.view.playingClass then PauseGlyph else PlayGlyph)
    // the cover is visible, and the placeholder hidden, exactly for a truthy artwork with a title
    ensures u.view.artworkVisible <==> HasTitle(info) && Truthy(info.value.artwork)
    ensures u.view.placeholderHidden == u.view.artworkVisible
    ensures u.view.artworkVisible ==> u.view.artworkSrc == info.value.artwork
    ensures !u.view.artworkVisible ==> u.view.artworkSrc.None?
    ensures u.view.progressWidth == NoProgress
    ensures u.view.timesCleared <==> HasTitle(info)
    // the renderer remembers only records it showed as a track
    ensures u.currentInfo == if HasTitle(info) then info else currentInfo
  {
    if !HasTitle(info) then
      var (title, artist) := Placeholder(info);
      Update(View(true, false, title, artist, PlayGlyph, NoProgress, false, false, None, false), currentInfo)
    else
      var record := info.value;
      var artistText := if Truthy(record.artist) then record.artist.value else UnknownArtist;
      var glyph := if record.playing then PauseGlyph else PlayGlyph;
      var shown := Truthy(record.artwork);
      Update(View(false, record.playing, record.title.value, artistText, glyph, NoProgress,
                  shown, shown, if shown then record.artwork else None, true),
             info)
  }

  /** What the renderer shows before any update arrives: "Aucune musique" with the play glyph. */
  lemma InitialView(currentInfo: Option<DeezerInfo>)
    ensures var u := UpdateUI(None, currentInfo);
            && u.view.noMusic && u.view.titleText == NoMusicTitle && u.view.artistText == NoMusicHint
            && u.view.glyph == PlayGlyph && !u.view.artworkVisible && !u.view.placeholderHidden
            && u.currentInfo == currentInfo
  {
  }

  /** The overlay never shows an empty first line. */
  lemma TitleLineNeverEmpty(info: Option<DeezerInfo>, currentInfo: Option<DeezerInfo>)
    ensures UpdateUI(info, currentInfo).view.titleText != []
  {
    var u := UpdateUI(info, currentInfo);
    if !HasTitle(info) {
      var lines := Placeholder(info);
      assert lines.0 == NotDetectedTitle || lines.0 == PermissionTitle
             || lines.0 == WaitingTitle || lines.0 == NoMusicTitle;
    }
  }
}

=== FILE: reconciler.dfy ===
/**
  The main process's polling tick (`fetchAndSendInfo`) and the transport
  commands (`mediaControl` and the three IPC handlers), over the process
  state: the artwork cache, the last track key and the playing flag.
  The script, the search service and the media CLI are parameters.
*/
module Reconciler {
  import opened Wrappers
  import opened Text
  import opened Snapshot
  import opened Artwork
  import opened TitleParser

  datatype State = State(cache: Cache, lastTrackKey: string, isCurrentlyPlaying: bool)

  /** At start the cache is empty, no track has been seen and the flag says playing. */
  const Initial: State := State(map[], "", true)

  /**
    One tick: whether the process quits, the state after it, the record
    sent to the window (if any) and the search queries issued.
  */
  datatype TickResult = TickResult(state: State, quit: bool, sent: Option<DeezerInfo>, requests: seq<string>)

  /** The record the tick starts from, before any artwork is attached. */
  function TickInfo(st: State, out: ScriptOutcome): DeezerInfo {
    GetDeezerInfo(out, st.isCurrentlyPlaying)
  }

  /** The tick has a track to look artwork up for: a truthy title and artist. */
  predicate HasTrack(info: DeezerInfo) {
    Truthy(info.title) && Truthy(info.artist)
  }

  function FetchAndSendInfo(st: State, out: ScriptOutcome, search: string -> SearchResponse,
                            windowAlive: bool): (r: TickResult)
    // the not-found error quits without sending anything or touching the state
    ensures r.quit <==> SignalsNotFound(TickInfo(st, out))
    ensures r.quit ==> r.sent.None? && r.requests == [] && r.state == st
    // otherwise exactly one update goes out while the window lives
    ensures !r.quit ==> (r.sent.Some? <==> windowAlive)
    // ticks never touch the playing flag and never lose or rewrite cached covers
    ensures r.state.isCurrentlyPlaying == st.isCurrentlyPlaying
    ensures SubCache(st.cache, r.state.cache)
    ensures |r.requests| <= 1
    // a track always goes to the resolver and becomes the last key
    ensures !r.quit && HasTrack(TickInfo(st, out)) ==>
              var info := TickInfo(st, out);
              var lookup := GetAlbumArt(st.cache, info.title.value, info.artist.value, search);
              && r.state.lastTrackKey == CacheKey(info.title.value, info.artist.value)
              && r.state.cache == lookup.cache
              && r.requests == lookup.requests
              && (r.sent.Some? ==> r.sent.value == info.(artwork := lookup.result))
    // anything else is sent as parsed and changes nothing
    ensures !HasTrack(TickInfo(st, out)) ==>
              r.state == st && r.requests == []
              && (r.sent.Some? ==> r.sent.value == TickInfo(st, out))
  {
    var info := TickInfo(st, out);
    if SignalsNotFound(info) then
      TickResult(st, true, None, [])
    else if HasTrack(info) then
      var key := CacheKey(info.title.value, info.artist.value);
      if key != st.lastTrackKey || !Truthy(info.artwork) then
        var lookup := GetAlbumArt(st.cache, info.title.value, info.artist.value, search);
        var updated := info.(artwork := lookup.result);
        TickResult(st.(cache := lookup.cache, lastTrackKey := key), false,
                   if windowAlive then Some(updated) else None, lookup.requests)
      else
        TickResult(st, false, if windowAlive then Some(info) else None, [])
    else
      TickResult(st, false, if windowAlive then Some(info) else None, [])
  }

  /**
    Every record the parser produces for a track has a truthy title and
    artist, so the artwork guard is always passed: the resolver is asked on
    every such tick, and only its cache suppresses repeated requests.
  */
  lemma {:induction false} EveryTrackTickAsksResolver(st: State, out: ScriptOutcome)
    ensures TickInfo(st, out).title.Some? <==> HasTrack(TickInfo(st, out))
    ensures TickInfo(st, out).artwork.None?
  {
  }

  /** Ticks keep the cache holding only non-empty cover URLs. */
  lemma TickKeepsCacheValid(st: State, out: ScriptOutcome, search: string -> SearchResponse, windowAlive: bool)
    requires ValidCache(st.cache)
    ensures ValidCache(FetchAndSendInfo(st, out, search, windowAlive).state.cache)
  {
    var info := TickInfo(st, out);
    if !SignalsNotFound(info) && HasTrack(info) {
      LookupKeepsCacheValid(st.cache, info.title.value, info.artist.value, search);
    }
  }

  /**
    A tick repeated on the same title after a successful lookup sends no
    request, whatever the service would answer, and sends the same record.
  */
  lemma RepeatedTrackSendsNoRequest(st: State, out: ScriptOutcome, search: string -> SearchResponse,
                                    later: string -> SearchResponse, windowAlive: bool)
    requires HasTrack(TickInfo(st, out))
    requires FetchAndSendInfo(st, out, search, windowAlive).sent.Some?
    requires FetchAndSendInfo(st, out, search, windowAlive).sent.value.artwork.Some?
    ensures var first := FetchAndSendInfo(st, out, search, windowAlive);
            var second := FetchAndSendInfo(first.state, out, later, windowAlive);
            second.requests == [] && second.sent == first.sent && second.state == first.state
  {
    var info := TickInfo(st, out);
    var first := FetchAndSendInfo(st, out, search, windowAlive);
    assert TickInfo(first.state, out) == info;
    SecondLookupIsCached(st.cache, info.title.value, info.artist.value, search, later);
  }

  /** Path of the media CLI the transport commands run. */
  const NowPlayingCli: string := "/opt/homebrew/bin/nowplaying-cli"

  /** The closed action table of `mediaControl`: the command line for an action, if known. */
  function MediaCommand(action: string): (r: Option<string>)
    ensures r.Some? <==> action in {"playpause", "next", "previous"}
    ensures action == "playpause" ==> r == Some(NowPlayingCli + " togglePlayPause")
    ensures action == "next" ==> r == Some(NowPlayingCli + " next")
    ensures action == "previous" ==> r == Some(NowPlayingCli + " previous")
  {
    if action == "playpause" then Some(NowPlayingCli + " togglePlayPause")
    else if action == "next" then Some(NowPlayingCli + " next")
    else if action == "previous" then Some(NowPlayingCli + " previous")
    else None
  }

  /** Different actions never run the same command line. */
  lemma MediaCommandInjective(a: string, b: string)
    requires MediaCommand(a).Some? && MediaCommand(a) == MediaCommand(b)
    ensures a == b
  {
    var p := |NowPlayingCli|;
    var t := NowPlayingCli + " togglePlayPause";
    var n := NowPlayingCli + " next";
    var v := NowPlayingCli + " previous";
    assert |t| != |n| && |t| != |v|;
    assert n[p + 1] == 'n' && v[p + 1] == 'p';
  }

  /** How the promise of `mediaControl` settles. */
  datatype Settled = Resolved | Rejected(reason: string)

  /** The command run (if any) and how the call settled. */
  datatype MediaRun = MediaRun(executed: Option<string>, settled: Settled)

  /** `mediaControl(action)`; `execSucceeds` says whether running a command line succeeds. */
  function MediaControl(action: string, execSucceeds: string -> bool): (r: MediaRun)
    ensures r.executed == MediaCommand(action)
    ensures r.settled.Resolved? <==> r.executed.Some? && execSucceeds(r.executed.value)
    ensures r.executed.None? ==> r.settled == Rejected("Unknown action")
  {
    match MediaCommand(action)
    case None => MediaRun(None, Rejected("Unknown action"))
    case Some(command) =>
      MediaRun(Some(command), if execSucceeds(command) then Resolved else Rejected("command failed"))
  }

  /** The three transport IPC channels. */
  datatype Transport = TogglePlayPause | NextTrack | PreviousTrack

  /**
    The action each channel passes to `mediaControl`: always one the table
    knows, and a different one per channel.
  */
  function ActionOf(t: Transport): (action: string)
    ensures MediaCommand(action).Some?
    ensures action == "playpause" <==> t == TogglePlayPause
    ensures action == "next" <==> t == NextTrack
    ensures action == "previous" <==> t == PreviousTrack
  {
    match t
    case TogglePlayPause => "playpause"
    case NextTrack => "next"
    case PreviousTrack => "previous"
  }

  /** A handler's state after it, what it returns to the window, and whether it polls at once. */
  datatype Handled = Handled(state: State, returned: bool, pollNow: bool)

  function HandleTransport(st: State, t: Transport, execSucceeds: string -> bool): (r: Handled)
    // the handler reports exactly whether the command ran and succeeded
    ensures r.returned <==> MediaControl(ActionOf(t), execSucceeds).settled.Resolved?
    // only a successful play/pause flips the flag, and it then polls at once
    ensures r.state.isCurrentlyPlaying == (st.isCurrentlyPlaying != (t == TogglePlayPause && r.returned))
    ensures r.pollNow <==> t == TogglePlayPause && r.returned
    // nothing else changes
    ensures r.state.cache == st.cache && r.state.lastTrackKey == st.lastTrackKey
  {
    var run := MediaControl(ActionOf(t), execSucceeds);
    if run.settled.Resolved? then
      if t == TogglePlayPause then
        Handled(st.(isCurrentlyPlaying := !st.isCurrentlyPlaying), true, true)
      else
        Handled(st, true, false)
    else
      Handled(st, false, false)
  }

  /** Every channel's action is in the table, so only a failing command makes a handler return false. */
  lemma HandlersNeverHitUnknownAction(t: Transport)
    ensures MediaCommand(ActionOf(t)).Some?
  {
  }

  /**
    After a successful play/pause the immediate re-poll reports the flipped
    flag for a track; two successful toggles restore it.
  */
  lemma ToggleFlipsNextSnapshot(st: State, execSucceeds: string -> bool, out: ScriptOutcome,
                                search: string -> SearchResponse)
    requires HandleTransport(st, TogglePlayPause, execSucceeds).returned
    requires TickInfo(st, out).title.Some?
    ensures var h := HandleTransport(st, TogglePlayPause, execSucceeds);
            var tick := FetchAndSendInfo(h.state, out, search, true);
            h.pollNow && tick.sent.Some? && tick.sent.value.playing == !st.isCurrentlyPlaying
    ensures var h := HandleTransport(st, TogglePlayPause, execSucceeds);
            HandleTransport(h.state, TogglePlayPause, execSucceeds).state == st
  {
    var h := HandleTransport(st, TogglePlayPause, execSucceeds);
    assert TickInfo(h.state, out).title.Some?;
  }
}

=== FILE: scenarios.dfy ===
/**
  End-to-end properties across the main process and the renderer: what
  the overlay shows after a tick, and how the artwork cache shapes the
  requests of a run of ticks.
*/
module Scenarios {
  import opened Wrappers
  import opened Text
  import opened Snapshot
  import opened Artwork
  import opened TitleParser
  import opened Reconciler
  import opened Overlay

  /**
    A tick that parses a track shows it: the parsed title and artist, the
    pause glyph exactly when the process believes the player is playing,
    and the renderer remembers the record.
  */
  lemma TrackTickShowsTrack(st: State, out: ScriptOutcome, search: string -> SearchResponse,
                            currentInfo: Option<DeezerInfo>)
    requires TickInfo(st, out).title.Some?
    ensures var info := TickInfo(st, out);
            var tick := FetchAndSendInfo(st, out, search, true);
            var u := UpdateUI(tick.sent, currentInfo);
            && !tick.quit && tick.sent.Some?
            && !u.view.noMusic
            && u.view.titleText == info.title.value
            && u.view.artistText == info.artist.value
            && (u.view.glyph == PauseGlyph <==> st.isCurrentlyPlaying)
            && u.currentInfo == tick.sent
  {
    var info := TickInfo(st, out);
    EveryTrackTickAsksResolver(st, out);
    assert !SignalsNotFound(info);
  }

  /**
    A running player without a window is reported as "found", which the
    renderer does not tell apart from no record at all: it shows
    "Aucune musique" and keeps its previous track.
  */
  lemma NoWindowShowsNoMusic(st: State, out: ScriptOutcome, search: string -> SearchResponse,
                             currentInfo: Option<DeezerInfo>)
    requires out.Output? && Trim(out.stdout) == NoWindowSentinel
    ensures var tick := FetchAndSendInfo(st, out, search, true);
            var u := UpdateUI(tick.sent, currentInfo);
            && !tick.quit && tick.sent == Some(FoundInfo()) && tick.state == st
            && u.view.noMusic && u.view.titleText == NoMusicTitle && u.view.artistText == NoMusicHint
            && u.currentInfo == currentInfo
  {
    assert TickInfo(st, out) == FoundInfo();
  }

  /**
    A failing script quits the process when its message names the missing
    player; any other non-empty message is shown as the permission hint,
    and an empty one falls through to "Aucune musique".
  */
  lemma ThrownScriptError(st: State, message: string, search: string -> SearchResponse,
                          currentInfo: Option<DeezerInfo>)
    ensures var tick := FetchAndSendInfo(st, Thrown(message), search, true);
            Contains(message, NotFoundError) ==> tick.quit && tick.sent.None?
    ensures var tick := FetchAndSendInfo(st, Thrown(message), search, true);
            var u := UpdateUI(tick.sent, currentInfo);
            !Contains(message, NotFoundError) ==>
              && tick.sent == Some(ErrorInfo(message))
              && u.view.noMusic
              && (message != [] ==> u.view.titleText == PermissionTitle)
              && (message == [] ==> u.view.titleText == NoMusicTitle)
  {
  }

  /** A script reporting the missing player always ends the process, with nothing shown. */
  lemma NotFoundQuits(st: State, out: ScriptOutcome, search: string -> SearchResponse, windowAlive: bool)
    requires out.Output? && Trim(out.stdout) == NotFoundSentinel
    ensures var tick := FetchAndSendInfo(st, out, search, windowAlive);
            tick.quit && tick.sent.None? && tick.requests == []
  {
    assert TickInfo(st, out) == ErrorInfo(NotFoundError);
    ContainsItself(NotFoundError);
  }

  /**
    After a successful play/pause the immediate re-poll of a track shows
    the other glyph.
  */
  lemma ToggleFlipsGlyph(st: State, execSucceeds: string -> bool, out: ScriptOutcome,
                         search: string -> SearchResponse, currentInfo: Option<DeezerInfo>)
    requires HandleTransport(st, TogglePlayPause, execSucceeds).returned
    requires TickInfo(st, out).title.Some?
    ensures var before := UpdateUI(FetchAndSendInfo(st, out, search, true).sent, currentInfo);
            var h := HandleTransport(st, TogglePlayPause, execSucceeds);
            var after := UpdateUI(FetchAndSendInfo(h.state, out, search, true).sent, currentInfo);
            h.pollNow && before.view.glyph != after.view.glyph
  {
    var h := HandleTransport(st, TogglePlayPause, execSucceeds);
    TrackTickShowsTrack(st, out, search, currentInfo);
    assert TickInfo(h.state, out).title.Some?;
    TrackTickShowsTrack(h.state, out, search, currentInfo);
    assert PauseGlyph != PlayGlyph by {
      assert PauseGlyph[0] != PlayGlyph[0];
    }
  }

  /** The window title the player shows for a song by an artist. */
  function PlayerTitle(song: string, artist: string): string {
    song + Sep + artist + DeezerSuffix
  }

  /**
    A song and artist the player's title round-trips through the parser:
    both trimmed and non-empty, and the first separator is the one after
    the song.
  */
  predicate Parsable(song: string, artist: string) {
    && song != [] && Trimmed(song)
    && artist != [] && Trimmed(artist)
    && IndexOf(song + Sep + artist, Sep) == Some(|song|)
  }

  /** The parser reads a parsable pair back from the player's title, whatever the playing flag. */
  lemma PlayerTitleParses(st: State, song: string, artist: string)
    requires Parsable(song, artist)
    ensures TickInfo(st, Output(PlayerTitle(song, artist))) == TrackInfo(song, artist, st.isCurrentlyPlaying, None)
  {
    ParsesSongAndArtist(song, artist, st.isCurrentlyPlaying);
  }

  /**
    From start-up: the first tick on a track sends one search request, a
    second tick on the same title sends none once the cover was found, and
    a tick on another track sends one request again, unless its key
    collides with the first one's, in which case it is served from the cache.
  */
  lemma {:induction false} CacheAcrossTicks(song1: string, artist1: string, song2: string, artist2: string,
                                            search: string -> SearchResponse)
    requires Parsable(song1, artist1) && Parsable(song2, artist2)
    requires CoverOf(search(SearchQuery(song1, artist1))).Some?
    ensures var t1 := FetchAndSendInfo(Initial, Output(PlayerTitle(song1, artist1)), search, true);
            var t2 := FetchAndSendInfo(t1.state, Output(PlayerTitle(song1, artist1)), search, true);
            var t3 := FetchAndSendInfo(t2.state, Output(PlayerTitle(song2, artist2)), search, true);
            && t1.requests == [SearchQuery(song1, artist1)]
            && t1.sent == Some(TrackInfo(song1, artist1, true, CoverOf(search(SearchQuery(song1, artist1)))))
            && t2.requests == [] && t2.sent == t1.sent
            && t3.requests == if CacheKey(song2, artist2) == CacheKey(song1, artist1) then []
                              else [SearchQuery(song2, artist2)]
  {
    var t1 := FetchAndSendInfo(Initial, Output(PlayerTitle(song1, artist1)), search, true);
    var t2 := FetchAndSendInfo(t1.state, Output(PlayerTitle(song1, artist1)), search, true);
    PlayerTitleParses(Initial, song1, artist1);
    SameTrackTwice(Output(PlayerTitle(song1, artist1)), song1, artist1, search);
    OtherTrackAfterOne(t2.state, song1, artist1, song2, artist2, search);
  }

  /** The first two ticks on one track: one request, then none, and the found cover is the only entry. */
  lemma SameTrackTwice(out: ScriptOutcome, song: string, artist: string, search: string -> SearchResponse)
    requires TickInfo(Initial, out) == TrackInfo(song, artist, true, None)
    requires song != [] && artist != []
    requires CoverOf(search(SearchQuery(song, artist))).Some?
    ensures var t1 := FetchAndSendInfo(Initial, out, search, true);
            var t2 := FetchAndSendInfo(t1.state, out, search, true);
            && t1.requests == [SearchQuery(song, artist)]
            && t1.sent == Some(TrackInfo(song, artist, true, CoverOf(search(SearchQuery(song, artist)))))
            && t2.requests == [] && t2.sent == t1.sent
            && t2.state.cache.Keys == {CacheKey(song, artist)}
  {
    FirstTrackTick(out, song, artist, search);
    RepeatedTrackSendsNoRequest(Initial, out, search, search, true);
  }

  /** With only the first track's key cached, a tick on a second track asks exactly when the keys differ. */
  lemma OtherTrackAfterOne(st: State, song1: string, artist1: string, song2: string, artist2: string,
                           search: string -> SearchResponse)
    requires Parsable(song2, artist2)
    requires st.cache.Keys == {CacheKey(song1, artist1)}
    ensures FetchAndSendInfo(st, Output(PlayerTitle(song2, artist2)), search, true).requests
            == if CacheKey(song2, artist2) == CacheKey(song1, artist1) then [] else [SearchQuery(song2, artist2)]
  {
    PlayerTitleParses(st, song2, artist2);
    TrackTickRequests(st, Output(PlayerTitle(song2, artist2)), song2, artist2, search);
  }

  /** The first tick on a track sends the pair's search, shows the cover found and caches only it. */
  lemma FirstTrackTick(out: ScriptOutcome, song: string, artist: string, search: string -> SearchResponse)
    requires TickInfo(Initial, out) == TrackInfo(song, artist, true, None)
    requires song != [] && artist != []
    requires CoverOf(search(SearchQuery(song, artist))).Some?
    ensures var t := FetchAndSendInfo(Initial, out, search, true);
            && t.requests == [SearchQuery(song, artist)]
            && t.sent == Some(TrackInfo(song, artist, true, CoverOf(search(SearchQuery(song, artist)))))
            && t.state.cache == map[CacheKey(song, artist) := CoverOf(search(SearchQuery(song, artist))).value]
  {
    var info := TickInfo(Initial, out);
    assert HasTrack(info) && !SignalsNotFound(info);
    FirstLookup(song, artist, search);
  }

  /** On the empty cache a found cover becomes the only entry. */
  lemma FirstLookup(title: string, artist: string, search: string -> SearchResponse)
    requires CoverOf(search(SearchQuery(title, artist))).Some?
    ensures var lookup := GetAlbumArt(map[], title, artist, search);
            && lookup.requests == [SearchQuery(title, artist)]
            && lookup.result == CoverOf(search(SearchQuery(title, artist)))
            && lookup.cache == map[CacheKey(title, artist) := lookup.result.value]
  {
  }

  /** A tick on a track sends that track's search exactly when its key is not cached. */
  lemma TrackTickRequests(st: State, out: ScriptOutcome, song: string, artist: string,
                          search: string -> SearchResponse)
    requires TickInfo(st, out) == TrackInfo(song, artist, st.isCurrentlyPlaying, None)
    requires song != [] && artist != []
    ensures FetchAndSendInfo(st, out, search, true).requests
            == if CacheKey(song, artist) in st.cache then [] else [SearchQuery(song, artist)]
  {
    var info := TickInfo(st, out);
    assert HasTrack(info) && !SignalsNotFound(info);
    var lookup := GetAlbumArt(st.cache, song, artist, search);
    assert lookup.requests == if CacheKey(song, artist) in st.cache then [] else [SearchQuery(song, artist)];
  }
}

=== FILE: snapshot.dfy ===
/**
  The now-playing record both title parsers build and the renderer reads.
  The source builds it as an object literal whose keys vary by branch; an
  absent key is `None` here (or `false` for `deezer_found`, which is only
  ever set to true).
*/
module Snapshot {
  import opened Wrappers
  import opened Text

  /** The error text both parsers use when the player is not running. */
  const NotFoundError: string := "Deezer not found"
  /** What the parsers show as artist when the title has no inner separator. */
  const UnknownArtist: string := "Unknown"
  /** The separator the player puts between song, artist and its own name. */
  const Sep: string := " - "

  datatype DeezerInfo = DeezerInfo(
    title: Option<string>,
    artist: Option<string>,
    playing: bool,
    artwork: Option<string>,
    error: Option<string>,
    deezerFound: bool,
    windowTitle: Option<string>)

  /** JavaScript / Python truthiness of an optional string: present and non-empty. */
  predicate Truthy(o: Option<string>) {
    o.Some? && o.value != []
  }

  function TrackInfo(title: string, artist: string, playing: bool, artwork: Option<string>): DeezerInfo {
    DeezerInfo(Some(title), Some(artist), playing, artwork, None, false, None)
  }

  function ErrorInfo(message: string): DeezerInfo {
    DeezerInfo(None, None, false, None, Some(message), false, None)
  }

  function FoundInfo(): DeezerInfo {
    DeezerInfo(None, None, false, None, None, true, None)
  }

  function WindowTitleInfo(windowTitle: string): DeezerInfo {
    DeezerInfo(None, None, false, None, None, false, Some(windowTitle))
  }

  function Count(b: bool): nat {
    if b then 1 else 0
  }

  /**
    The record has exactly one of the four shapes above: a track, an error,
    a bare "found", or a raw window title. Title and artist are never
    surfaced one without the other, and artwork and the playing flag only
    come with a track.
  */
  predicate WellShaped(info: DeezerInfo) {
    && (info.title.Some? <==> info.artist.Some?)
    && (info.title.None? ==> info.artwork.None? && !info.playing)
    && Count(info.title.Some?) + Count(info.error.Some?) + Count(info.deezerFound)
       + Count(info.windowTitle.Some?) == 1
  }

  /** The record makes the main process quit (main.js `fetchAndSendInfo`). */
  predicate SignalsNotFound(info: DeezerInfo) {
    info.error.Some? && Contains(info.error.value, NotFoundError)
  }
}

=== FILE: text.dfy ===
/**
  The string operations the two title parsers rely on: whitespace trimming
  (JavaScript `trim`, Python `strip`), substring search (`includes` / `in`,
  `rsplit(sep, 1)`), JavaScript `split` / `join` with a string separator and
  Python `replace(pat, '')`.
*/
module Text {
  import opened Wrappers

  /** The whitespace both `trim` and `strip` remove, restricted to ASCII. */
  predicate IsSpace(c: char) {
    c == ' ' || c == '\t' || c == '\n' || c == '\r' || c == '\U{B}' || c == '\U{C}'
  }

  predicate AllSpace(s: string) {
    forall i :: 0 <= i < |s| ==> IsSpace(s[i])
  }

  /** Neither end of `s` is whitespace. */
  predicate Trimmed(s: string) {
    s == [] || (!IsSpace(s[0]) && !IsSpace(s[|s| - 1]))
  }

  /** The index of the first non-whitespace character at or after `k`, or `|s|`. */
  function SkipSpaceFrom(s: string, k: nat): (n: nat)
    requires k <= |s|
    ensures k <= n <= |s|
    ensures forall j :: k <= j < n ==> IsSpace(s[j])
    ensures n < |s| ==> !IsSpace(s[n])
    decreases |s| - k
  {
    if k < |s| && IsSpace(s[k]) then SkipSpaceFrom(s, k + 1) else k
  }

  /** The index just past the last non-whitespace character before `k`, or 0. */
  function SkipSpaceBack(s: string, k: nat): (n: nat)
    requires k <= |s|
    ensures n <= k
    ensures forall j :: n <= j < k ==> IsSpace(s[j])
    ensures 0 < n ==> !IsSpace(s[n - 1])
  {
    if 0 < k && IsSpace(s[k - 1]) then SkipSpaceBack(s, k - 1) else k
  }

  /**
    JavaScript `String.prototype.trim` and Python `str.strip()`: the input
    with its leading and trailing whitespace cut off.
  */
  function Trim(s: string): (r: string)
    ensures Trimmed(r)
    ensures exists i :: 0 <= i && i + |r| <= |s| && r == s[i..i + |r|]
                        && AllSpace(s[..i]) && AllSpace(s[i + |r|..])
    ensures r == [] <==> AllSpace(s)
    ensures Trimmed(s) ==> r == s
  {
    var lo := SkipSpaceFrom(s, 0);
    var hi := SkipSpaceBack(s, |s|);
    if hi <= lo then
      assert AllSpace(s) by {
        forall j | 0 <= j < |s| ensures IsSpace(s[j]) {
          if lo <= j {
            assert hi <= j;
          }
        }
      }
      assert s[..0] == [] && s[0..] == s;
      []
    else
      assert AllSpace(s[..lo]) by {
        forall j | 0 <= j < lo ensures IsSpace(s[..lo][j]) {
          assert s[..lo][j] == s[j];
        }
      }
      assert AllSpace(s[hi..]) by {
        forall j | 0 <= j < |s| - hi ensures IsSpace(s[hi..][j]) {
          assert s[hi..][j] == s[hi + j];
        }
      }
      assert s[..|s|] == s;
      s[lo..hi]
  }

  /** `pat` occurs in `s` starting at index `i`. */
  predicate OccursAt(s: string, pat: string, i: int) {
    0 <= i && i + |pat| <= |s| && s[i..i + |pat|] == pat
  }

  /** The first occurrence of `pat` in `s` at or after `k`. */
  function IndexFrom(s: string, pat: string, k: nat): (r: Option<nat>)
    ensures r.Some? ==> k <= r.value && OccursAt(s, pat, r.value)
    ensures forall j :: k <= j && (r.None? || j < r.value) ==> !OccursAt(s, pat, j)
    decreases |s| - k
  {
    if k + |pat| > |s| then None
    else if s[k..k + |pat|] == pat then Some(k)
    else IndexFrom(s, pat, k + 1)
  }

  /** The first occurrence of `pat` in `s` (JavaScript `indexOf`). */
  function IndexOf(s: string, pat: string): (r: Option<nat>)
    ensures r.Some? ==> OccursAt(s, pat, r.value)
    ensures forall j :: 0 <= j && (r.None? || j < r.value) ==> !OccursAt(s, pat, j)
  {
    IndexFrom(s, pat, 0)
  }

  /** JavaScript `s.includes(pat)`, Python `pat in s`. */
  predicate Contains(s: string, pat: string) {
    IndexOf(s, pat).Some?
  }

  /** Every text contains itself. */
  lemma ContainsItself(s: string)
    ensures Contains(s, s)
  {
    assert OccursAt(s, s, 0);
  }

  /** The last occurrence of `pat` in `s` starting at or before `k`. */
  function LastFrom(s: string, pat: string, k: int): (r: Option<nat>)
    ensures r.Some? ==> r.value <= k && OccursAt(s, pat, r.value)
    ensures forall j :: j <= k && (r.None? || r.value < j) ==> !OccursAt(s, pat, j)
    decreases k + 1
  {
    if k < 0 then None
    else if OccursAt(s, pat, k) then Some(k)
    else LastFrom(s, pat, k - 1)
  }

  /** The last occurrence of `pat` in `s` (JavaScript `lastIndexOf`). */
  function LastIndexOf(s: string, pat: string): (r: Option<nat>)
    ensures r.Some? ==> OccursAt(s, pat, r.value)
    ensures forall j :: (r.None? || r.value < j) ==> !OccursAt(s, pat, j)
    ensures r.None? <==> !Contains(s, pat)
  {
    LastFrom(s, pat, |s| - |pat|)
  }

  /** `s` ends with `suffix`. */
  predicate EndsWith(s: string, suffix: string) {
    |suffix| <= |s| && s[|s| - |suffix|..] == suffix
  }

  /** Python `s.rsplit(pat, 1)[0]`: the text before the last `pat`, or all of `s`. */
  function BeforeLast(s: string, pat: string): (r: string)
    ensures |r| <= |s| && r == s[..|r|]
    ensures Contains(s, pat) ==> OccursAt(s, pat, |r|) && forall j :: |r| < j ==> !OccursAt(s, pat, j)
    ensures !Contains(s, pat) ==> r == s
  {
    match LastIndexOf(s, pat)
    case Some(j) => s[..j]
    case None => s
  }

  /**
    JavaScript `parts.join(sep)`: the pieces in order with `sep` between
    them, so it starts with the first piece and ends with the last.
  */
  function Join(parts: seq<string>, sep: string): string {
    if |parts| == 0 then []
    else if |parts| == 1 then parts[0]
    else parts[0] + sep + Join(parts[1..], sep)
  }

  /**
    A join starts with the first piece and ends with the last, and its
    length is the pieces' lengths plus one separator between each two.
  */
  lemma {:induction false} JoinBounds(parts: seq<string>, sep: string)
    requires |parts| >= 1
    ensures parts[0] <= Join(parts, sep)
    ensures EndsWith(Join(parts, sep), parts[|parts| - 1])
    ensures |Join(parts, sep)| == TotalLength(parts) + (|parts| - 1) * |sep|
    decreases |parts|
  {
    if |parts| > 1 {
      var rest := parts[1..];
      JoinBounds(rest, sep);
      var r := Join(parts, sep);
      var tail := Join(rest, sep);
      assert r == parts[0] + sep + tail;
      assert rest[|rest| - 1] == parts[|parts| - 1];
      assert r[|r| - |tail|..] == tail;
      var last := parts[|parts| - 1];
      assert r[|r| - |last|..] == tail[|tail| - |last|..];
    }
  }

  /** The summed lengths of the pieces. */
  function TotalLength(parts: seq<string>): nat {
    if |parts| == 0 then 0 else |parts[0]| + TotalLength(parts[1..])
  }

  /**
    JavaScript `s.split(sep)` for a non-empty separator: the pieces between
    the non-overlapping occurrences of `sep`, scanning left to right.
  */
  function Split(s: string, sep: string): (parts: seq<string>)
    requires sep != []
    ensures |parts| >= 1
    ensures Join(parts, sep) == s
    // the pieces are cut leftmost first, as JavaScript scans
    ensures IndexOf(s, sep).None? ==> parts == [s]
    ensures IndexOf(s, sep).Some? ==> parts[0] == s[..IndexOf(s, sep).value]
    ensures forall k :: 0 <= k < |parts| ==> !Contains(parts[k], sep)
    decreases |s|
  {
    match IndexOf(s, sep)
    case None => [s]
    case Some(i) =>
      var rest := Split(s[i + |sep|..], sep);
      CutAtOccurrence(s, sep, i);
      JoinCons(s[..i], rest, sep);
      PrefixBeforeFirstIsFree(s, sep, i);
      var parts := [s[..i]] + rest;
      assert parts[1..] == rest;
      parts
  }

  /** An occurrence cuts the text into what precedes it, the pattern and what follows. */
  lemma CutAtOccurrence(s: string, pat: string, i: int)
    requires OccursAt(s, pat, i)
    ensures s == s[..i] + pat + s[i + |pat|..]
  {
    assert s == s[..i] + s[i..i + |pat|] + s[i + |pat|..];
  }

  /** The text before the first occurrence of `sep` does not contain `sep`. */
  lemma PrefixBeforeFirstIsFree(s: string, sep: string, i: nat)
    requires sep != []
    requires IndexOf(s, sep) == Some(i)
    ensures !Contains(s[..i], sep)
  {
    var p := s[..i];
    if Contains(p, sep) {
      var j := IndexOf(p, sep).value;
      assert OccursAt(p, sep, j);
      assert p[j..j + |sep|] == s[j..j + |sep|];
      assert OccursAt(s, sep, j);
    }
  }

  /**
    What the JavaScript title parser takes from `split(sep)`: the first
    piece is the text before the first `sep`, and the remaining pieces joined
    back with `sep` are exactly the text after it, later separators included.
  */
  lemma {:induction false} SplitHeadAndRest(s: string, sep: string, i: nat)
    requires sep != []
    requires IndexOf(s, sep) == Some(i)
    ensures Split(s, sep)[0] == s[..i]
    ensures Join(Split(s, sep)[1..], sep) == s[i + |sep|..]
  {
    assert Split(s, sep)[1..] == Split(s[i + |sep|..], sep);
  }

  /** Python `s.replace(pat, '')`: every non-overlapping `pat` removed, left to right. */
  function RemoveAll(s: string, pat: string): (r: string)
    requires pat != []
    ensures |r| <= |s|
    ensures r == s <==> !Contains(s, pat)
    decreases |s|
  {
    match IndexOf(s, pat)
    case None => s
    case Some(i) => s[..i] + RemoveAll(s[i + |pat|..], pat)
  }

  /** `replace(pat, '')` is the pieces of `split(pat)` glued back with nothing between them. */
  lemma {:induction false} RemoveAllIsJoinOfSplit(s: string, pat: string)
    requires pat != []
    ensures RemoveAll(s, pat) == Join(Split(s, pat), [])
    decreases |s|
  {
    var first := IndexOf(s, pat);
    if first.Some? {
      var i := first.value;
      var rest := s[i + |pat|..];
      RemoveAllIsJoinOfSplit(rest, pat);
      SplitUnfold(s, pat, i);
      JoinCons(s[..i], Split(rest, pat), []);
    }
  }

  lemma SplitUnfold(s: string, pat: string, i: nat)
    requires pat != []
    requires IndexOf(s, pat) == Some(i)
    ensures Split(s, pat) == [s[..i]] + Split(s[i + |pat|..], pat)
    ensures RemoveAll(s, pat) == s[..i] + RemoveAll(s[i + |pat|..], pat)
  {
  }

  lemma JoinCons(head: string, tail: seq<string>, sep: string)
    requires |tail| >= 1
    ensures Join([head] + tail, sep) == head + sep + Join(tail, sep)
  {
    assert ([head] + tail)[1..] == tail;
  }
}

=== FILE: title_parser.dfy ===
/**
  main.js `getDeezerInfo`: the window title of the player, read through an
  AppleScript call, turned into a now-playing record. The script call is
  replaced by its outcome: the text it printed, or the message of the error
  it threw (timeout, non-zero exit).
*/
module TitleParser {
  import opened Wrappers
  import opened Text
  import opened Snapshot

  /** Printed by the script when no process of the player exists. */
  const NotFoundSentinel: string := "DEEZER_NOT_FOUND"
  /** Printed by the script when the process exists but has no window. */
  const NoWindowSentinel: string := "DEEZER_RUNNING_NO_WINDOW"
  /** The player's own name at the end of a window title that shows a track. */
  const DeezerSuffix: string := " - Deezer"

  datatype ScriptOutcome = Output(stdout: string) | Thrown(message: string)

  /**
    `result.replace(/ - Deezer$/, '').trim()`: the suffix goes only when it
    ends the text; an occurrence elsewhere stays.
  */
  function TrackPart(result: string): (r: string)
    ensures EndsWith(result, DeezerSuffix) ==> r == Trim(result[..|result| - |DeezerSuffix|])
    ensures !EndsWith(result, DeezerSuffix) && Trimmed(result) ==> r == result
  {
    Trim(if EndsWith(result, DeezerSuffix) then result[..|result| - |DeezerSuffix|] else result)
  }

  /**
    The title and artist the parser reports for a track part: the text
    before the first separator, and everything after it, both trimmed.
  */
  predicate SplitAtFirst(trackPart: string, title: string, artist: string) {
    match IndexOf(trackPart, Sep)
    case Some(i) => title == Trim(trackPart[..i]) && artist == Trim(trackPart[i + |Sep|..])
    case None => title == trackPart && artist == UnknownArtist
  }

  function GetDeezerInfo(out: ScriptOutcome, isCurrentlyPlaying: bool): (info: DeezerInfo)
    ensures WellShaped(info)
    ensures info.artwork.None?
    // the two sentinels, and a thrown error passed through as its message
    ensures out.Output? && Trim(out.stdout) == NotFoundSentinel ==> info == ErrorInfo(NotFoundError)
    ensures out.Output? && Trim(out.stdout) == NoWindowSentinel ==> info == FoundInfo()
    ensures out.Thrown? ==> info == ErrorInfo(out.message)
    // only the not-found sentinel or a thrown error produces an error
    ensures info.error.Some? <==> out.Thrown? || Trim(out.stdout) == NotFoundSentinel
    // a track exactly when the trimmed output names the player
    ensures info.title.Some? <==> out.Output? && Contains(Trim(out.stdout), DeezerSuffix)
    ensures info.title.Some? ==>
              && SplitAtFirst(TrackPart(Trim(out.stdout)), info.title.value, info.artist.value)
              && info.title.value != [] && info.artist.value != []
              && info.playing == isCurrentlyPlaying
    ensures info.title.None? ==> !info.playing
    // anything else is surfaced as the raw window title, the empty text included
    ensures out.Output? && !Contains(Trim(out.stdout), DeezerSuffix)
            && Trim(out.stdout) != NotFoundSentinel && Trim(out.stdout) != NoWindowSentinel
            ==> info == WindowTitleInfo(Trim(out.stdout))
  {
    match out
    case Thrown(message) => ErrorInfo(message)
    case Output(stdout) =>
      var result := Trim(stdout);
      SentinelsLackSuffix();
      if result == NotFoundSentinel then ErrorInfo(NotFoundError)
      else if result == NoWindowSentinel then FoundInfo()
      else if result != [] && Contains(result, DeezerSuffix) then
        var trackPart := TrackPart(result);
        TrackPartNotEmpty(result);
        if Contains(trackPart, Sep) then
          var parts := Split(trackPart, Sep);
          var song := Trim(parts[0]);
          var artist := Trim(Join(parts[1..], Sep));
          var i := IndexOf(trackPart, Sep).value;
          SplitHeadAndRest(trackPart, Sep, i);
          SplitFieldsNotEmpty(trackPart, i);
          TrackInfo(song, artist, isCurrentlyPlaying, None)
        else
          TrackInfo(trackPart, UnknownArtist, isCurrentlyPlaying, None)
      else
        WindowTitleInfo(result)
  }

  /** Neither sentinel can be mistaken for a track title. */
  lemma SentinelsLackSuffix()
    ensures !Contains(NotFoundSentinel, DeezerSuffix)
    ensures !Contains(NoWindowSentinel, DeezerSuffix)
  {
    NoSpaceNoSuffix(NotFoundSentinel);
    NoSpaceNoSuffix(NoWindowSentinel);
  }

  lemma NoSpaceNoSuffix(s: string)
    requires ' ' !in s
    ensures !Contains(s, DeezerSuffix)
  {
    forall i | 0 <= i && i + |DeezerSuffix| <= |s|
      ensures !OccursAt(s, DeezerSuffix, i)
    {
      assert s[i..i + |DeezerSuffix|][0] == s[i];
    }
  }

  /** A trimmed title that names the player always leaves a non-empty track part. */
  lemma TrackPartNotEmpty(result: string)
    requires Trimmed(result) && result != []
    requires Contains(result, DeezerSuffix)
    ensures TrackPart(result) != []
    ensures Trimmed(TrackPart(result))
  {
    var stripped := if EndsWith(result, DeezerSuffix) then result[..|result| - |DeezerSuffix|] else result;
    if EndsWith(result, DeezerSuffix) {
      assert result[|result| - |DeezerSuffix|] == ' ';
    }
    assert stripped[0] == result[0];
    assert !AllSpace(stripped);
  }

  /**
    In a trimmed, non-empty track part the first separator is neither at
    the start nor at the end, so both fields around it keep a non-space
    character.
  */
  lemma SplitFieldsNotEmpty(trackPart: string, i: nat)
    requires Trimmed(trackPart) && trackPart != []
    requires IndexOf(trackPart, Sep) == Some(i)
    ensures Trim(trackPart[..i]) != []
    ensures Trim(trackPart[i + |Sep|..]) != []
  {
    assert trackPart[i] == trackPart[i..i + |Sep|][0] == ' ';
    assert trackPart[i + 2] == trackPart[i..i + |Sep|][2] == ' ';
    assert 0 < i;
    assert trackPart[..i][0] == trackPart[0];
    assert !AllSpace(trackPart[..i]);
    var rest := trackPart[i + |Sep|..];
    assert i + 2 < |trackPart| - 1;
    assert rest[|rest| - 1] == trackPart[|trackPart| - 1];
    assert !AllSpace(rest);
  }

  /**
    `"<song> - <artist> - Deezer"` gives exactly that song and artist when
    the first separator is the one after the song (the song may hold
    dashes, as in `"Anti-Hero"`, but not a separator of its own); the
    artist may contain further separators (`"B - C"`), which are kept.
  */
  lemma {:induction false} ParsesSongAndArtist(song: string, artist: string, playing: bool)
    requires song != [] && Trimmed(song)
    requires artist != [] && Trimmed(artist)
    requires IndexOf(song + Sep + artist, Sep) == Some(|song|)
    ensures GetDeezerInfo(Output(song + Sep + artist + DeezerSuffix), playing)
            == TrackInfo(song, artist, playing, None)
  {
    StrippedSongAndArtist(song, artist);
    ParsedFromShape(song + Sep + artist, song, artist, playing);
    assert song + Sep + artist + DeezerSuffix == (song + Sep + artist) + DeezerSuffix;
  }

  /** `"<song> - <artist>"` is a trimmed track part that splits into that song and artist. */
  lemma StrippedSongAndArtist(song: string, artist: string)
    requires song != [] && Trimmed(song)
    requires artist != [] && Trimmed(artist)
    requires IndexOf(song + Sep + artist, Sep) == Some(|song|)
    ensures var stripped := song + Sep + artist;
            stripped != [] && Trimmed(stripped) && SplitAtFirst(stripped, song, artist)
  {
    var stripped := song + Sep + artist;
    assert stripped[..|song|] == song;
    assert stripped[|song| + |Sep|..] == artist;
    assert stripped[0] == song[0] && stripped[|stripped| - 1] == artist[|artist| - 1];
  }

  /** The parser's result for a track part followed by the player's name is fixed by the part's split. */
  lemma ParsedFromShape(trackPart: string, song: string, artist: string, playing: bool)
    requires trackPart != [] && Trimmed(trackPart)
    requires SplitAtFirst(trackPart, song, artist)
    ensures GetDeezerInfo(Output(trackPart + DeezerSuffix), playing) == TrackInfo(song, artist, playing, None)
  {
    NamedTitleShape(trackPart);
    ParsedFromRaw(trackPart + DeezerSuffix, trackPart, song, artist, playing);
  }

  lemma ParsedFromRaw(raw: string, trackPart: string, song: string, artist: string, playing: bool)
    requires Trim(raw) == raw && raw != NotFoundSentinel && raw != NoWindowSentinel
    requires Contains(raw, DeezerSuffix) && TrackPart(raw) == trackPart
    requires SplitAtFirst(trackPart, song, artist)
    ensures GetDeezerInfo(Output(raw), playing) == TrackInfo(song, artist, playing, None)
  {
    var info := GetDeezerInfo(Output(raw), playing);
    assert TrackPart(Trim(raw)) == trackPart;
    assert info.title.Some?;
    assert SplitAtFirst(trackPart, info.title.value, info.artist.value);
    SplitAtFirstUnique(trackPart, song, artist, info.title.value, info.artist.value);
  }

  lemma SplitAtFirstUnique(trackPart: string, t1: string, a1: string, t2: string, a2: string)
    requires SplitAtFirst(trackPart, t1, a1) && SplitAtFirst(trackPart, t2, a2)
    ensures t1 == t2 && a1 == a2
  {
  }

  /** A trimmed track part followed by the player's name is parsed from exactly that part. */
  lemma NamedTitleShape(trackPart: string)
    requires trackPart != [] && Trimmed(trackPart)
    ensures var raw := trackPart + DeezerSuffix;
            && Trim(raw) == raw
            && raw != NotFoundSentinel && raw != NoWindowSentinel
            && Contains(raw, DeezerSuffix)
            && TrackPart(raw) == trackPart
  {
    var raw := trackPart + DeezerSuffix;
    assert raw[0] == trackPart[0] && raw[|raw| - 1] == 'r';
    assert Trimmed(raw);
    assert raw != NotFoundSentinel && raw != NoWindowSentinel by {
      assert NotFoundSentinel[|NotFoundSentinel| - 1] == 'D';
      assert NoWindowSentinel[|NoWindowSentinel| - 1] == 'W';
    }
    assert raw[..|raw| - |DeezerSuffix|] == trackPart;
    assert raw[|raw| - |DeezerSuffix|..] == DeezerSuffix;
    assert OccursAt(raw, DeezerSuffix, |raw| - |DeezerSuffix|);
  }

  /**
    A dash-free song followed by the separator puts the first separator
    right after the song: the common case of the round trips above.
  */
  lemma FirstSeparatorAfterSong(song: string, artist: string)
    requires '-' !in song
    ensures IndexOf(song + Sep + artist, Sep) == Some(|song|)
  {
    var s := song + Sep + artist;
    assert s[|song|..|song| + |Sep|] == Sep;
    assert OccursAt(s, Sep, |song|);
    forall j | 0 <= j < |song|
      ensures !OccursAt(s, Sep, j)
    {
      assert s[j..j + |Sep|][1] == s[j + 1];
      assert j + 1 < |song| ==> s[j + 1] == song[j + 1];
      assert s[|song|] == ' ';
    }
  }

  /** `"<title> - Deezer"` without an inner separator gives that title and the artist "Unknown". */
  lemma {:induction false} ParsesTitleWithoutArtist(title: string, playing: bool)
    requires title != [] && Trimmed(title) && !Contains(title, Sep)
    ensures GetDeezerInfo(Output(title + DeezerSuffix), playing)
            == TrackInfo(title, UnknownArtist, playing, None)
  {
    ParsedFromShape(title, title, UnknownArtist, playing);
  }
}

=== FILE: window_scan.dfy ===
/**
  get-deezer-info.py `get_deezer_info`: the same decision over the list of
  on-screen windows (owner name, window name) that Quartz reports, with
  its own parsing rules: the player's name is cut at its last occurrence,
  a `" | Deezer"` form is read in reverse order, and the artwork lookup
  runs inside the parser.
*/
module WindowScan {
  import opened Wrappers
  import opened Text
  import opened Snapshot
  import opened Artwork
  import TitleParser

  /** One window record; a missing key reads as the empty string, as `win.get(key, '')` does. */
  datatype Window = Window(owner: string, name: string)

  /** The owner name of the player's windows. */
  const DeezerOwner: string := "Deezer"
  /** The alternative form of the player's name in a title. */
  const BarSuffix: string := " | Deezer"

  /** The record returned, the module-level cache after the call, and the search queries sent. */
  datatype ScanResult = ScanResult(info: DeezerInfo, cache: Cache, requests: seq<string>)

  /** The index of the first window the player owns. */
  function FirstDeezerWindow(windows: seq<Window>): (r: Option<nat>)
    ensures r.Some? ==> r.value < |windows| && windows[r.value].owner == DeezerOwner
    ensures forall k :: 0 <= k < |windows| && (r.None? || k < r.value) ==> windows[k].owner != DeezerOwner
  {
    if |windows| == 0 then None
    else if windows[0].owner == DeezerOwner then Some(0)
    else match FirstDeezerWindow(windows[1..])
      case None => None
      case Some(k) => Some(k + 1)
  }

  /** A track record as the script builds it: playing is always true. */
  function Track(song: string, artist: string, lookup: Lookup): ScanResult {
    ScanResult(TrackInfo(song, artist, true, lookup.result), lookup.cache, lookup.requests)
  }

  /**
    The song and artist the bar form reports for a track part: the text
    after the first separator is the song and the text before it the
    artist, both stripped; without a separator the part is the song and
    the artist is "Unknown".
  */
  predicate ReversedSplit(trackPart: string, song: string, artist: string) {
    match IndexOf(trackPart, Sep)
    case Some(i) => song == Trim(trackPart[i + |Sep|..]) && artist == Trim(trackPart[..i])
    case None => song == trackPart && artist == UnknownArtist
  }

  /** The decision for the first window the player owns, given its title. */
  function InfoFromTitle(title: string, cache: Cache, search: string -> SearchResponse): (r: ScanResult)
    ensures WellShaped(r.info)
    ensures r.info.error.None?
    ensures r.info.title.Some? <==> title != [] && (Contains(title, TitleParser.DeezerSuffix) || Contains(title, BarSuffix))
    ensures r.info.title.Some? ==> r.info.playing
    ensures r.info.title.None? ==> !r.info.playing && r.requests == [] && r.cache == cache
    ensures SubCache(cache, r.cache) && |r.requests| <= 1
    ensures title == [] ==> r.info == FoundInfo()
    ensures title != [] && !Contains(title, TitleParser.DeezerSuffix) && !Contains(title, BarSuffix)
            ==> r.info == WindowTitleInfo(title)
    // the dash form: the stripped text before the last " - Deezer", split at its first separator
    ensures title != [] && Contains(title, TitleParser.DeezerSuffix) ==>
              && r.info.title.Some? && r.info.artist.Some?
              && TitleParser.SplitAtFirst(Trim(BeforeLast(title, TitleParser.DeezerSuffix)),
                                          r.info.title.value, r.info.artist.value)
    // the bar form: the stripped text without " | Deezer", read in reverse
    ensures title != [] && !Contains(title, TitleParser.DeezerSuffix) && Contains(title, BarSuffix) ==>
              && r.info.title.Some? && r.info.artist.Some?
              && ReversedSplit(Trim(RemoveAll(title, BarSuffix)), r.info.title.value, r.info.artist.value)
  {
    if title != [] && Contains(title, TitleParser.DeezerSuffix) then
      DashForm(Trim(BeforeLast(title, TitleParser.DeezerSuffix)), cache, search)
    else if title != [] && Contains(title, BarSuffix) then
      BarForm(Trim(RemoveAll(title, BarSuffix)), cache, search)
    else if title != [] then
      ScanResult(WindowTitleInfo(title), cache, [])
    else
      ScanResult(FoundInfo(), cache, [])
  }

  /**
    The dash form, given the stripped text before the last `" - Deezer"`:
    split at the first separator with both fields stripped, or the whole
    part with the artist "Unknown", which is looked up with an empty artist.
  */
  function DashForm(trackPart: string, cache: Cache, search: string -> SearchResponse): (r: ScanResult)
    ensures r.info.title.Some? && r.info.artist.Some? && r.info.playing && r.info.error.None?
    ensures WellShaped(r.info)
    ensures TitleParser.SplitAtFirst(trackPart, r.info.title.value, r.info.artist.value)
    ensures SubCache(cache, r.cache) && |r.requests| <= 1
    // the artwork is the lookup of the reported pair, with an empty artist when there is no separator
    ensures var lookup := GetAlbumArt(cache, r.info.title.value,
                                      if Contains(trackPart, Sep) then r.info.artist.value else "", search);
            r.info.artwork == lookup.result && r.cache == lookup.cache && r.requests == lookup.requests
  {
    match IndexOf(trackPart, Sep)
    case Some(i) =>
      var song := Trim(trackPart[..i]);
      var artist := Trim(trackPart[i + |Sep|..]);
      Track(song, artist, GetAlbumArt(cache, song, artist, search))
    case None =>
      Track(trackPart, UnknownArtist, GetAlbumArt(cache, trackPart, "", search))
  }

  /**
    The bar form, given the stripped text without `" | Deezer"`: read in
    reverse and looked up, or, without a separator, the whole part with
    the artist "Unknown" and no lookup at all.
  */
  function BarForm(trackPart: string, cache: Cache, search: string -> SearchResponse): (r: ScanResult)
    ensures r.info.title.Some? && r.info.artist.Some? && r.info.playing && r.info.error.None?
    ensures WellShaped(r.info)
    ensures ReversedSplit(trackPart, r.info.title.value, r.info.artist.value)
    ensures SubCache(cache, r.cache) && |r.requests| <= 1
    ensures !Contains(trackPart, Sep) ==> r.info.artwork.None? && r.requests == [] && r.cache == cache
    // with a separator the artwork is the lookup of the reported pair
    ensures var lookup := GetAlbumArt(cache, r.info.title.value, r.info.artist.value, search);
            Contains(trackPart, Sep) ==>
              r.info.artwork == lookup.result && r.cache == lookup.cache && r.requests == lookup.requests
  {
    match IndexOf(trackPart, Sep)
    case Some(i) =>
      var song := Trim(trackPart[i + |Sep|..]);
      var artist := Trim(trackPart[..i]);
      Track(song, artist, GetAlbumArt(cache, song, artist, search))
    case None =>
      ScanResult(TrackInfo(trackPart, UnknownArtist, true, None), cache, [])
  }

  /**
    The loop of `get_deezer_info`: the index of the first window the player
    owns, or none.
  */
  method FindPlayerWindow(windows: seq<Window>) returns (found: Option<nat>)
    ensures found.Some? ==> found.value < |windows| && windows[found.value].owner == DeezerOwner
    ensures forall k :: 0 <= k < |windows| && (found.None? || k < found.value) ==> windows[k].owner != DeezerOwner
    ensures found == FirstDeezerWindow(windows)
  {
    var i := 0;
    while i < |windows| && windows[i].owner != DeezerOwner
      invariant 0 <= i <= |windows|
      invariant forall k :: 0 <= k < i ==> windows[k].owner != DeezerOwner
    {
      i := i + 1;
    }
    if i < |windows| {
      found := Some(i);
      FirstWindowIsUnique(windows, i);
    } else {
      found := None;
      FirstWindowIsUnique(windows, -1);
    }
  }

  /**
    The scan over the window list: the first window the player owns
    decides, and without one the result is the not-found error.
  */
  method GetDeezerInfo(windows: seq<Window>, cache: Cache, search: string -> SearchResponse)
    returns (r: ScanResult)
    ensures FirstDeezerWindow(windows).None? ==>
              r == ScanResult(ErrorInfo(NotFoundError), cache, [])
    ensures FirstDeezerWindow(windows).Some? ==>
              r == InfoFromTitle(windows[FirstDeezerWindow(windows).value].name, cache, search)
  {
    var found := FindPlayerWindow(windows);
    match found
    case Some(i) => r := InfoFromTitle(windows[i].name, cache, search);
    case None => r := ScanResult(ErrorInfo(NotFoundError), cache, []);
  }

  /** A window the player owns with none before it is the first such window. */
  lemma FirstWindowIsUnique(windows: seq<Window>, i: int)
    requires -1 <= i < |windows|
    requires forall k :: 0 <= k < (if i < 0 then |windows| else i) ==> windows[k].owner != DeezerOwner
    requires i >= 0 ==> windows[i].owner == DeezerOwner
    ensures FirstDeezerWindow(windows) == if i < 0 then None else Some(i)
  {
  }

  /**
    `"<song> - <artist> - Deezer"`: the text before the last `" - Deezer"`
    is split at its first separator, and the pair is looked up as is.
  */
  lemma {:induction false} ParsesDashForm(song: string, artist: string, cache: Cache,
                                          search: string -> SearchResponse)
    requires song != [] && Trimmed(song)
    requires artist != [] && Trimmed(artist)
    requires IndexOf(song + Sep + artist, Sep) == Some(|song|)
    ensures var r := InfoFromTitle(song + Sep + artist + TitleParser.DeezerSuffix, cache, search);
            var lookup := GetAlbumArt(cache, song, artist, search);
            r == ScanResult(TrackInfo(song, artist, true, lookup.result), lookup.cache, lookup.requests)
  {
    var title := song + Sep + artist + TitleParser.DeezerSuffix;
    var stripped := song + Sep + artist;
    DashFormStripped(song, artist);
    assert stripped[..|song|] == song;
    assert stripped[|song| + |Sep|..] == artist;
  }

  /** The dash form loses exactly its closing `" - Deezer"`, and what is left is already trimmed. */
  lemma DashFormStripped(song: string, artist: string)
    requires song != [] && Trimmed(song)
    requires artist != [] && Trimmed(artist)
    ensures var title := song + Sep + artist + TitleParser.DeezerSuffix;
            && title != [] && Contains(title, TitleParser.DeezerSuffix)
            && Trim(BeforeLast(title, TitleParser.DeezerSuffix)) == song + Sep + artist
  {
    var title := song + Sep + artist + TitleParser.DeezerSuffix;
    var stripped := song + Sep + artist;
    var at := |title| - |TitleParser.DeezerSuffix|;
    assert title[at..at + |TitleParser.DeezerSuffix|] == TitleParser.DeezerSuffix;
    assert OccursAt(title, TitleParser.DeezerSuffix, at);
    assert BeforeLast(title, TitleParser.DeezerSuffix) == stripped by {
      var b := BeforeLast(title, TitleParser.DeezerSuffix);
      assert |b| == at;
      assert title[..at] == stripped;
    }
    assert stripped[0] == song[0] && stripped[|stripped| - 1] == artist[|artist| - 1];
    assert Trim(stripped) == stripped;
  }

  /**
    Without an inner separator the title is reported with the artist
    "Unknown", but its artwork is looked up with an empty artist.
  */
  lemma {:induction false} NoSeparatorLooksUpEmptyArtist(title: string, cache: Cache,
                                                         search: string -> SearchResponse)
    requires title != [] && Contains(title, TitleParser.DeezerSuffix)
    requires !Contains(Trim(BeforeLast(title, TitleParser.DeezerSuffix)), Sep)
    ensures var trackPart := Trim(BeforeLast(title, TitleParser.DeezerSuffix));
            var r := InfoFromTitle(title, cache, search);
            var lookup := GetAlbumArt(cache, trackPart, "", search);
            && r.info == TrackInfo(trackPart, UnknownArtist, true, lookup.result)
            && r.requests == lookup.requests
            && (CacheKey(trackPart, "") !in cache ==> r.requests == [SearchQuery(trackPart, "")])
  {
  }

  /**
    `"<artist> - <song> | Deezer"` is read in reverse: the artist comes
    before the first separator and the song after it.
  */
  lemma {:induction false} ParsesBarFormReversed(artist: string, song: string, cache: Cache,
                                                 search: string -> SearchResponse)
    requires artist != [] && Trimmed(artist) && '|' !in artist
    requires song != [] && Trimmed(song) && '|' !in song
    requires IndexOf(artist + Sep + song, Sep) == Some(|artist|)
    requires !Contains(artist + Sep + song + BarSuffix, TitleParser.DeezerSuffix)
    ensures var r := InfoFromTitle(artist + Sep + song + BarSuffix, cache, search);
            var lookup := GetAlbumArt(cache, song, artist, search);
            r == ScanResult(TrackInfo(song, artist, true, lookup.result), lookup.cache, lookup.requests)
  {
    var stripped := artist + Sep + song;
    var title := stripped + BarSuffix;
    BarSuffixOnlyAtEnd(artist, song);
    SplitUnfold(title, BarSuffix, |stripped|);
    assert title[..|stripped|] == stripped;
    assert title[|stripped| + |BarSuffix|..] == [];
    assert RemoveAll(title, BarSuffix) == stripped;
    assert stripped[0] == artist[0] && stripped[|stripped| - 1] == song[|song| - 1];
    assert Trim(stripped) == stripped;
    assert stripped[..|artist|] == artist;
    assert stripped[|artist| + |Sep|..] == song;
  }

  /** With no bar before it, the first `" | Deezer"` is the one closing the title. */
  lemma BarSuffixOnlyAtEnd(artist: string, song: string)
    requires '|' !in artist && '|' !in song
    ensures IndexOf(artist + Sep + song + BarSuffix, BarSuffix) == Some(|artist + Sep + song|)
  {
    var stripped := artist + Sep + song;
    var title := stripped + BarSuffix;
    assert title[|stripped|..|stripped| + |BarSuffix|] == BarSuffix;
    assert OccursAt(title, BarSuffix, |stripped|);
    assert '|' !in stripped;
    forall j | 0 <= j < |stripped|
      ensures !OccursAt(title, BarSuffix, j)
    {
      // an occurrence needs a bar at j + 1, which is either in the bar-free
      // text or the space that opens the closing " | Deezer"
      if j + |BarSuffix| <= |title| {
        assert title[j..j + |BarSuffix|][1] == title[j + 1];
        assert j + 1 < |stripped| ==> title[j + 1] == stripped[j + 1];
        assert j + 1 == |stripped| ==> title[j + 1] == ' ';
      }
    }
  }

  /** Without an inner separator the bar form is reported with no artwork and no request. */
  lemma BarFormWithoutSeparatorSkipsLookup(title: string, cache: Cache, search: string -> SearchResponse)
    requires title != [] && !Contains(title, TitleParser.DeezerSuffix) && Contains(title, BarSuffix)
    requires !Contains(Trim(RemoveAll(title, BarSuffix)), Sep)
    ensures var r := InfoFromTitle(title, cache, search);
            r.info.artwork.None? && r.requests == [] && r.cache == cache
            && r.info.title == Some(Trim(RemoveAll(title, BarSuffix)))
            && r.info.artist == Some(UnknownArtist)
  {
  }

  /**
    Whatever its fields carry, a titled record from the script has the
    artwork, cache and requests of looking up the pair it reports: the
    stripped song and artist, the track part with an empty artist for a
    dash form without a separator, and no lookup at all for a bar form
    without one.
  */
  lemma LooksUpReportedPair(title: string, cache: Cache, search: string -> SearchResponse)
    requires title != [] && (Contains(title, TitleParser.DeezerSuffix) || Contains(title, BarSuffix))
    ensures var r := InfoFromTitle(title, cache, search);
            var dash := Contains(title, TitleParser.DeezerSuffix);
            var part := if dash then Trim(BeforeLast(title, TitleParser.DeezerSuffix))
                        else Trim(RemoveAll(title, BarSuffix));
            var lookup := GetAlbumArt(cache, r.info.title.value,
                                      if Contains(part, Sep) then r.info.artist.value else "", search);
            (dash || Contains(part, Sep)) ==>
              r.info.artwork == lookup.result && r.cache == lookup.cache && r.requests == lookup.requests
  {
  }

  /**
    The two parsers agree on a trimmed window title that ends with the
    player's name: `main.js` cuts the closing `" - Deezer"`, the script
    cuts at the last one, which is the same one, and both split the
    stripped rest at its first separator and strip the two fields.
  */
  lemma {:induction false} ParsersAgree(title: string, playing: bool, cache: Cache,
                                        search: string -> SearchResponse)
    requires title != [] && Trimmed(title) && EndsWith(title, TitleParser.DeezerSuffix)
    ensures var js := TitleParser.GetDeezerInfo(TitleParser.Output(title), playing);
            var py := InfoFromTitle(title, cache, search).info;
            js.title == py.title && js.artist == py.artist
  {
    var js := TitleParser.GetDeezerInfo(TitleParser.Output(title), playing);
    var py := InfoFromTitle(title, cache, search).info;
    var part := TitleParser.TrackPart(title);
    ScriptSplitsTrackPart(title, playing);
    PythonSplitsTrackPart(title, cache, search);
    TitleParser.SplitAtFirstUnique(part, js.title.value, js.artist.value, py.title.value, py.artist.value);
  }

  /** main.js reads such a title as its track part split at the first separator. */
  lemma ScriptSplitsTrackPart(title: string, playing: bool)
    requires title != [] && Trimmed(title) && EndsWith(title, TitleParser.DeezerSuffix)
    ensures var js := TitleParser.GetDeezerInfo(TitleParser.Output(title), playing);
            && js.title.Some? && js.artist.Some?
            && TitleParser.SplitAtFirst(TitleParser.TrackPart(title), js.title.value, js.artist.value)
  {
    ClosingSuffixIsLast(title);
    var out := TitleParser.Output(title);
    assert Trim(out.stdout) == title;
  }

  /** The script reads such a title as the same track part split at the first separator. */
  lemma PythonSplitsTrackPart(title: string, cache: Cache, search: string -> SearchResponse)
    requires title != [] && EndsWith(title, TitleParser.DeezerSuffix)
    ensures var py := InfoFromTitle(title, cache, search).info;
            && py.title.Some? && py.artist.Some?
            && TitleParser.SplitAtFirst(TitleParser.TrackPart(title), py.title.value, py.artist.value)
  {
    ClosingSuffixIsLast(title);
  }

  /** In a title that ends with the player's name, the last `" - Deezer"` is the closing one. */
  lemma ClosingSuffixIsLast(title: string)
    requires EndsWith(title, TitleParser.DeezerSuffix)
    ensures Contains(title, TitleParser.DeezerSuffix)
    ensures BeforeLast(title, TitleParser.DeezerSuffix) == title[..|title| - |TitleParser.DeezerSuffix|]
  {
    var at := |title| - |TitleParser.DeezerSuffix|;
    assert OccursAt(title, TitleParser.DeezerSuffix, at);
  }
}

=== FILE: wrappers.dfy ===
/** The optional value used wherever the source has `null`, `undefined` or `None`. */
module Wrappers {
  datatype Option<+T> = None | Some(value: T)
}
